=== FILE: README.md ===
# Publish pipeline of the Zhihu VS Code extension, in Dafny

This project models the two pieces of logic at the heart of the extension's
publish service (`src/service/publish.service.ts`):

- the custom markdown-it **fence rule**, which renders one fenced code block
  as HTML, takes the block's language from its info string (the first word,
  following the convention of section 4.5, "Fenced code blocks", of the
  CommonMark specification) and records it in a `lang` attribute of the
  `<pre>` element;
- the **publish command**, which offers the user's collection as a quick
  pick, sends the rendered answer HTML to the picked question (POST of a new
  answer) or answer (PUT of an update), and on success shows a notification,
  opens a panel and fetches the answer page into it.

Both are pure functions here. The fence rule is `Fence.RenderFence` over an
immutable `Token`; the helpers it calls but does not define (HTML escaping,
Markdown unescaping, the configured highlighter and markdown-it's
`renderAttrs`) are arrow-typed fields of `Fence.Collaborators` and stay
uninterpreted. The publish command is `Publish.PublishRun`: from the rendered
HTML, the API base URLs and a `Host` value holding the collection, the user's
pick and the server's replies, it returns the ordered trace of effects
(offer, requests, notification, panel, page) and whether the returned promise
rejects because the pick was dismissed.

Files:

- `wrappers.dfy` — `Option`, standing in for `undefined`/`null`.
- `js_text.dfy` — JavaScript whitespace, `trim()` and `split(/\s+/)[0]`.
- `fence.dfy` — the fence rule (source lines 26-73).
- `publish.dfy` — the publish command (source lines 93-146).

Two details of the source are modelled as written:

- In the question branch the follow-up GET is sent to `AnswerAPI/<id>` with
  the id of the picked *question*, not the id of the answer just created
  (`Publish.FetchIgnoresNewAnswerId`).
- Only the question branch checks for status 200; the answer branch treats
  any reply as success (`Publish.AnswerIgnoresStatus`,
  `Publish.QuestionGatedOnStatus`).

The model follows the code on these points:

- A highlighter that throws is not caught by the rule.
- A non-200 reply on the question branch ends the run with no message.
- A target of any other type sends nothing.
- `escapeHtml` lives in `src/util/md-html-utils`, which is not modelled, so it stays uninterpreted.
- A 200 reply to the question POST whose body is `null` makes the handler throw when it reads the new answer's id, so no notice, panel or GET follows (`Publish.NullBodyStopsQuestion`).

## Model

| member | source | states |
|---|---|---|
| JsText.TrimStart | src/service/publish.service.ts:28 | the result is a suffix of the input, everything removed is whitespace, and the result does not start with whitespace |
| JsText.TrimEnd | src/service/publish.service.ts:28 | the result is a prefix of the input, everything removed is whitespace, and the result does not end with whitespace |
| JsText.Trim | src/service/publish.service.ts:28 | `trim()` leaves a string with whitespace at neither end, empty exactly when the input is all whitespace |
| JsText.TrimSurrounded | src/service/publish.service.ts:28 | `trim()` removes exactly the surrounding whitespace: any whitespace around an unpadded middle trims to that middle |
| JsText.FirstWord | src/service/publish.service.ts:33 | `split(/\s+/)[0]` is the longest whitespace-free prefix: a prefix, free of whitespace, and followed by whitespace or the end |
| JsText.FirstWordBeforeSpace | src/service/publish.service.ts:33 | a whitespace-free word followed by whitespace and anything else splits off as the first word |
| Fence.AttrIndex | src/service/publish.service.ts:50 | `attrIndex('lang')` is -1 exactly when no pair is named `lang`, otherwise the index of the first such pair |
| Fence.AttrIndexFindsLangValue | src/service/publish.service.ts:50 | the index lookup and an independent first-`lang`-value reading agree on presence and value |
| Fence.AttrList | src/service/publish.service.ts:51 | a missing (`null`) attribute list reads as empty, where `attrIndex` finds no `lang` pair; a present list is used as it is |
| Fence.InfoText | src/service/publish.service.ts:28 | an empty info string reads as empty, and every info text has whitespace at neither end (its exact value, the trimmed unescaped info, is stated by `Fence.InfoTextOfPadded`) |
| Fence.InfoTextOfPadded | src/service/publish.service.ts:28-34 | a non-empty info string whose unescaped form is whitespace, an unpadded middle, and whitespace reads as exactly that middle, and the language is the middle's first word |
| Fence.LangName | src/service/publish.service.ts:28-34 | the language name is empty exactly when the info text is; otherwise it is the non-empty, whitespace-free first word of the info text |
| Fence.Highlighted | src/service/publish.service.ts:36-40 | with a highlighter its non-empty result is used, an empty (falsy) result falls back to escaped content; without one the content is always escaped; the result is always either the escaped content or the highlighter's output, and it is empty only when escaping gives an empty string |
| Fence.WithLang | src/service/publish.service.ts:49-57 | without a `lang` pair a `["lang", lang]` pair is appended at the end; with one, only the first `lang` pair changes, to its old value, a space and the language; length and order are kept |
| Fence.LangAccumulates | src/service/publish.service.ts:53-57 | after the update the first `lang` value is the old value space-joined with the language, or the language alone when there was none; never the old value alone |
| Fence.RenderedAttrs | src/service/publish.service.ts:49-70 | an empty info text renders the token's own attributes untouched; otherwise the rendered list's first `lang` value is the token's value space-joined with the language (or the language alone), the list keeps its length and its `lang` pair stays at the same index when one exists, grows by at most one pair when none does, and every other pair stays in place |
| Fence.RenderedAttrsAppends | src/service/publish.service.ts:50-54 | when the token has no `lang` pair (or no attribute list), the rendered list is its own pairs followed by exactly one `["lang", lang]` pair |
| Fence.RenderFence | src/service/publish.service.ts:26-73 | output already starting with `<pre` is returned with a newline; anything else is wrapped as `<pre` + rendered attributes + `>` + body + `</pre>\n`; every output ends in a newline |
| Fence.EmptyInfoRendersOwnAttrs | src/service/publish.service.ts:49-72 | whatever the highlighter does, an empty info text adds no `lang` pair: the wrapper renders the token's original attributes |
| Fence.PreWrappedIgnoresAttrs | src/service/publish.service.ts:42-44 | highlighter output that is already a `<pre` block is never re-wrapped: the result does not depend on the attribute renderer |
| Fence.PlainTaggedBlock | src/service/publish.service.ts:36-66 | without a highlighter, a tagged block of an attribute-less token is wrapped with exactly one `["lang", lang]` pair around the escaped content |
| Fence.JsInfoNamesJs | src/service/publish.service.ts:28-34 | the info string `js` gives the info text and language name `js` |
| Fence.JsBlockExample | src/service/publish.service.ts:26-73 | the block "```js" / `console.log(1)` with no highlighter renders as `<pre` + rendered `lang="js"` + `>console.log(1)\n</pre>\n` |
| Fence.TokenAttrsAfter | src/service/publish.service.ts:51-56 | the token itself changes only when a wrapper is built from a non-empty info and an existing `lang` pair: the shallow `slice()` shares that pair |
| Fence.JoinsOntoSinglePair | src/service/publish.service.ts:53-56 | for a token whose only pair is `lang` with value `w` and a non-empty info text, the rendered list is that single pair with value `w lang` |
| Fence.RerenderJoinsTwice | src/service/publish.service.ts:51-56 | for a token with a single `lang` pair, the token after one run holds the joined value, and rendering that token again joins the language a second time (`v lang lang`) |
| Publish.ToPickItem | src/service/publish.service.ts:99 | the label is the title, or the excerpt when the title is empty (an empty label means both are empty); the description is the excerpt; id and type are carried over |
| Publish.PickItems | src/service/publish.service.ts:99 | one entry per candidate in the same order, each with the candidate's id, type and excerpt as description, labelled by the title or else the excerpt, and with an empty label only when both are empty (so the label is fixed on every input) |
| Publish.ToTarget | src/service/publish.service.ts:103 | a picked entry reduces to its id and type |
| Publish.SelectTarget | src/service/publish.service.ts:96-103 | a dismissed pick selects nothing; a picked entry reduces to exactly the id and type of the candidate it was built from |
| Publish.SubmitRequest | src/service/publish.service.ts:104-134 | a question gets a JSON POST of `PostAnswer(html)` to `QuestionAPI/<id>/answers`, an answer a JSON PUT of the HTML with rewards off and an empty tagline to `AnswerAPI/<id>`, any other type no request; the HTML is sent unchanged |
| Publish.FetchRequest | src/service/publish.service.ts:117 | the follow-up is a body-less, non-JSON, gzip GET of `AnswerAPI/<picked target id>` that asks for the body only |
| Publish.FollowUp | src/service/publish.service.ts:116-121 | after success a panel with scripts, command links and find widget is opened, then the GET is sent, then the page is shown only when it arrives |
| Publish.Accepted | src/service/publish.service.ts:114-136 | the handler runs through only when a reply arrived: for an answer exactly then; for a question never on a non-200 status or a `null` body; never for another type |
| Publish.SuccessNotice | src/service/publish.service.ts:115-136 | the notice starts with the success text and names `QuestionAPI/<id>/answers/<new id>` for a question, and the submission URL itself for an answer |
| Publish.AfterSubmit | src/service/publish.service.ts:113-143 | after the reply there is nothing exactly when the handler does not run through; otherwise the notice comes first, followed by the follow-up |
| Publish.PublishRun | src/service/publish.service.ts:93-146 | every run starts by offering the collection's entries; the run rejects exactly when the pick is dismissed |
| Publish.FollowUpTrace | src/service/publish.service.ts:116-121 | the follow-up holds one request, the GET of the answer page, and no notice |
| Publish.AfterSubmitTrace | src/service/publish.service.ts:113-143 | after the reply there is one notice and one GET of the answer page when the reply is accepted (200 for a question, any reply for an answer), and nothing otherwise |
| Publish.PickedTrace | src/service/publish.service.ts:104-145 | the requests and notices of a run are the submission followed by those of the reply handling, or none for another type |
| Publish.CancelledSendsNothing | src/service/publish.service.ts:96-103 | a dismissed pick rejects with no request and no notice |
| Publish.QuestionPlan | src/service/publish.service.ts:105-123 | a question target gets exactly one POST; only a 200 reply with a readable body adds the notice naming `QuestionAPI/<id>/answers/<new id>` and a gzip GET of `AnswerAPI/<question id>` |
| Publish.AnswerPlan | src/service/publish.service.ts:124-143 | an answer target gets exactly one PUT; any reply adds the notice naming `AnswerAPI/<id>` and a gzip GET of the same URL |
| Publish.OtherTypeSendsNothing | src/service/publish.service.ts:105-146 | a target of any other type settles with no request and no notice |
| Publish.AnswerIgnoresStatus | src/service/publish.service.ts:135-143 | the answer branch ignores the status code: replies differing only in status give the same run |
| Publish.QuestionGatedOnStatus | src/service/publish.service.ts:113-123 | a non-200 reply to the question POST ends the run right after the POST |
| Publish.NullBodyStopsQuestion | src/service/publish.service.ts:113-121 | a 200 reply with a `null` body to the question POST leaves exactly the offer and the POST |
| Publish.FetchIgnoresNewAnswerId | src/service/publish.service.ts:115-117 | replacing the new answer's id in a reply body by any other id changes no request: the follow-up GET is addressed by the picked target's id |
| Publish.Question42Example | src/service/publish.service.ts:105-115 | picking question 42 with reply 200 for answer 7 sends two requests, the first to `QuestionAPI/42/answers`, and the notice names `QuestionAPI/42/answers/7` |

## Left out

- `preview` (lines 76-91): rendering with the plain parser into a templated webview; no logic beyond plumbing.
- markdown-it itself: tokenising, `render` and `renderAttrs` are library code; the rendered HTML is an input of `Publish.PublishRun` and `renderAttrs` is uninterpreted.
- `escapeHtml` and `unescapeMd`: `src/util/md-html-utils` is not part of this model, so no escape table is assumed.
- Fence.Highlighted: every falsy highlighter result (`""`, `undefined`, `null`) is represented by `""`; exceptions thrown by the highlighter are not caught by the source and are not modelled.
- Fence.AttrIndex: markdown-it's `Token.attrIndex` is not part of this model; it is modelled by its documented meaning, the first pair with the given name or -1.
- The values of `QuestionAPI`, `AnswerAPI` (`src/const/URL`) and `MediaTypes` (`src/const/ENUM`) are not part of this model; the URLs are parameters and the type tags a datatype.
- Target ids and the reply's answer id are modelled as the text they interpolate to, whether the server sends numbers or strings.
- The `PostAnswer` class (`src/model/publish/answer.model`) is not part of this model; its body is represented by the HTML it wraps.
- Publish.SubmitRequest: does not record the empty `headers: {}` object passed with both submissions.
- The result of `html.replace` on line 104 is discarded, so that call has no effect and is not modelled.
- vscode host I/O: showing the quick pick, the notification and the webview panel are trace effects; their display is not modelled.
- `CollectionService.getTargets` is not part of this model: its result is an input, and a failure to list targets is not modelled.
- `HttpService.sendRequest`: transport, retries and headers are not modelled; its outcome is an input. Whether it rejects non-2xx replies depends on that service, which is not part of this model; a rejection is `SubmitFailed` or `PageFailed`, after which no callback runs.
- Asynchrony: the requests are not awaited, so the command's promise settles before their callbacks run; the model lists the effects in the order they are issued and does not model interleaving with other runs.

=== FILE: fence.dfy ===
/**
 The custom markdown-it `fence` rule installed by the publish service: it turns
 one fenced code block into HTML, tagging the `<pre>` element with the block's
 language through a `lang` attribute.

 The helpers the rule calls but whose code is not part of this model (HTML
 escaping, Markdown unescaping, the configured highlighter and markdown-it's
 attribute renderer) are carried in a `Collaborators` value and stay
 uninterpreted.
 */
module Fence {
  import opened Wrappers
  import opened JsText

  /** One `[name, value]` attribute pair of a markdown-it token. */
  datatype Attr = Attr(name: string, value: string)

  /** The parts of a markdown-it fence token the rule reads. `attrs` is
      `None` where markdown-it leaves the list `null`. */
  datatype Token = Token(content: string, info: string, attrs: Option<seq<Attr>>)

  /** The functions the rule calls without defining them. A highlighter's
      falsy results (`""`, `undefined`, `null`) are all represented by `""`. */
  datatype Collaborators = Collaborators(
    escapeHtml: string -> string,
    unescapeMd: string -> string,
    highlight: Option<(string, string) -> string>,
    renderAttrs: Option<seq<Attr>> -> string)

  const LangKey := "lang"
  const PreOpen := "<pre"
  const PreClose := "</pre>\n"

  /** The token's attribute list, a missing one read as empty. */
  function AttrList(attrs: Option<seq<Attr>>): (list: seq<Attr>)
    ensures attrs.None? ==> list == [] && AttrIndex(list, LangKey) == -1
    ensures attrs.Some? ==> list == attrs.value
  {
    attrs.GetOr([])
  }

  /** markdown-it's `attrIndex`: the position of the first pair called
      `name`, or -1 when there is none. */
  function AttrIndex(attrs: seq<Attr>, name: string): (i: int)
    ensures -1 <= i < |attrs|
    ensures i == -1 <==> forall k :: 0 <= k < |attrs| ==> attrs[k].name != name
    ensures 0 <= i ==> attrs[i].name == name
    ensures 0 <= i ==> forall k :: 0 <= k < i ==> attrs[k].name != name
  {
    if |attrs| == 0 then -1
    else if attrs[0].name == name then 0
    else
      var j := AttrIndex(attrs[1..], name);
      if j < 0 then -1 else j + 1
  }

  /** The value of the first `lang` pair, if any; an independent reading of
      the list used to state what the update does. */
  function LangValue(attrs: seq<Attr>): Option<string> {
    if |attrs| == 0 then None
    else if attrs[0].name == LangKey then Some(attrs[0].value)
    else LangValue(attrs[1..])
  }

  /** The info string as the rule reads it: unescaped and trimmed, or empty
      when the token has none. */
  function InfoText(env: Collaborators, token: Token): (info: string)
    ensures token.info == "" ==> info == ""
    ensures Unpadded(info)
  {
    if token.info == "" then "" else Trim(env.unescapeMd(token.info))
  }

  /** The language name: the first whitespace-delimited word of the info
      text, or empty when that text is empty. */
  function LangName(env: Collaborators, token: Token): (lang: string)
    ensures var info := InfoText(env, token);
      && (info == "" <==> lang == "")
      && NoSpace(lang)
      && |lang| <= |info|
      && lang == info[..|lang|]
      && (|lang| == |info| || IsSpace(info[|lang|]))
  {
    var info := InfoText(env, token);
    if info == "" then ""
    else
      assert !IsSpace(info[0]);
      FirstWord(info)
  }

  /** The block body: the highlighter's output when there is a highlighter
      and it returns something non-empty, otherwise the escaped content. */
  function Highlighted(env: Collaborators, content: string, lang: string): (h: string)
    ensures env.highlight.None? ==> h == env.escapeHtml(content)
    ensures env.highlight.Some? && env.highlight.value(content, lang) != "" ==>
      h == env.highlight.value(content, lang)
    ensures env.highlight.Some? && env.highlight.value(content, lang) == "" ==>
      h == env.escapeHtml(content)
    ensures h != "" || env.escapeHtml(content) == ""
    ensures h == env.escapeHtml(content) || (env.highlight.Some? && h == env.highlight.value(content, lang))
  {
    match env.highlight
    case None => env.escapeHtml(content)
    case Some(highlight) =>
      var out := highlight(content, lang);
      if out != "" then out else env.escapeHtml(content)
  }

  /** The attribute list with the language added: a new `lang` pair appended
      when there is none, otherwise the language space-joined onto the value
      of the first `lang` pair, every other pair left as it was. */
  function WithLang(attrs: seq<Attr>, lang: string): (r: seq<Attr>)
    ensures AttrIndex(attrs, LangKey) < 0 ==> r == attrs + [Attr(LangKey, lang)]
    ensures AttrIndex(attrs, LangKey) >= 0 ==> |r| == |attrs|
    ensures var i := AttrIndex(attrs, LangKey);
      i >= 0 ==> r[i] == Attr(LangKey, attrs[i].value + " " + lang)
    ensures forall k :: 0 <= k < |attrs| && k != AttrIndex(attrs, LangKey) ==> r[k] == attrs[k]
  {
    var i := AttrIndex(attrs, LangKey);
    if i < 0 then attrs + [Attr(LangKey, lang)]
    else attrs[i := Attr(attrs[i].name, attrs[i].value + " " + lang)]
  }

  /** The attribute list the wrapper is rendered from: the token's own when
      the info text is empty; otherwise a list whose `lang` value is the
      token's value joined with the language (or the language alone), every
      other pair kept in place, and the length kept when a `lang` pair exists. */
  function RenderedAttrs(env: Collaborators, token: Token): (a: Option<seq<Attr>>)
    ensures InfoText(env, token) == "" ==> a == token.attrs
    ensures InfoText(env, token) != "" ==>
      var old_ := LangValue(AttrList(token.attrs));
      var lang := LangName(env, token);
      && a.Some?
      && LangValue(a.value) == Some(if old_.Some? then old_.value + " " + lang else lang)
    ensures InfoText(env, token) != "" ==>
      var attrs := AttrList(token.attrs);
      && a.Some? && |attrs| <= |a.value| <= |attrs| + 1
      && forall k :: 0 <= k < |attrs| && k != AttrIndex(attrs, LangKey) ==> a.value[k] == attrs[k]
    ensures InfoText(env, token) != "" ==>
      var attrs := AttrList(token.attrs);
      var i := AttrIndex(attrs, LangKey);
      && a.Some?
      && (i >= 0 ==> |a.value| == |attrs| && a.value[i].name == LangKey)
  {
    if InfoText(env, token) == "" then token.attrs
    else
      LangAccumulates(AttrList(token.attrs), LangName(env, token));
      Some(WithLang(AttrList(token.attrs), LangName(env, token)))
  }

  /** Without a `lang` pair, rendering appends exactly one `["lang", lang]`
      pair after the token's own pairs. */
  lemma RenderedAttrsAppends(env: Collaborators, token: Token)
    requires InfoText(env, token) != ""
    requires AttrIndex(AttrList(token.attrs), LangKey) < 0
    ensures RenderedAttrs(env, token) == Some(AttrList(token.attrs) + [Attr(LangKey, LangName(env, token))])
  {
  }

  /** The HTML for one fence token. Output the highlighter already wrapped in
      a `<pre` block is passed through with a newline; anything else is
      wrapped in a `<pre>` element whose attributes are `RenderedAttrs`. */
  function RenderFence(env: Collaborators, token: Token): (out: string)
    ensures var h := Highlighted(env, token.content, LangName(env, token));
      PreOpen <= h ==> out == h + "\n"
    ensures var h := Highlighted(env, token.content, LangName(env, token));
      !(PreOpen <= h) ==>
        out == PreOpen + env.renderAttrs(RenderedAttrs(env, token)) + ">" + h + PreClose
    ensures |out| > 0 && out[|out| - 1] == '\n'
  {
    var h := Highlighted(env, token.content, LangName(env, token));
    if PreOpen <= h then h + "\n"
    else PreOpen + env.renderAttrs(RenderedAttrs(env, token)) + ">" + h + PreClose
  }

  /** The token's own attribute list after the rule has run. `slice()` copies
      the list but not its pairs, so joining the language onto an existing
      `lang` pair also changes the token; an appended pair does not. */
  function TokenAttrsAfter(env: Collaborators, token: Token): (a: Option<seq<Attr>>)
    ensures var lang := LangName(env, token);
      var wrapped := !(PreOpen <= Highlighted(env, token.content, lang));
      a == (if wrapped && lang != "" && AttrIndex(AttrList(token.attrs), LangKey) >= 0
            then RenderedAttrs(env, token) else token.attrs)
  {
    var lang := LangName(env, token);
    if PreOpen <= Highlighted(env, token.content, lang) || InfoText(env, token) == "" then
      token.attrs
    else if AttrIndex(AttrList(token.attrs), LangKey) < 0 then
      token.attrs
    else
      Some(WithLang(AttrList(token.attrs), lang))
  }

  /** `AttrIndex` and `LangValue` agree on where the first `lang` pair is. */
  lemma {:induction false} AttrIndexFindsLangValue(attrs: seq<Attr>)
    ensures AttrIndex(attrs, LangKey) < 0 <==> LangValue(attrs).None?
    ensures AttrIndex(attrs, LangKey) >= 0 ==>
      LangValue(attrs) == Some(attrs[AttrIndex(attrs, LangKey)].value)
    decreases |attrs|
  {
    if |attrs| > 0 && attrs[0].name != LangKey {
      AttrIndexFindsLangValue(attrs[1..]);
    }
  }

  /** `LangValue` only looks at the first `lang` pair: pairs before it are
      not `lang` pairs, and what follows it does not matter. */
  lemma {:induction false} LangValueAt(attrs: seq<Attr>, i: nat, v: Attr)
    requires i < |attrs| && attrs[i].name == LangKey && v.name == LangKey
    requires forall k :: 0 <= k < i ==> attrs[k].name != LangKey
    ensures LangValue(attrs[i := v]) == Some(v.value)
    decreases i
  {
    if i > 0 {
      assert attrs[i := v][1..] == attrs[1..][i - 1 := v];
      LangValueAt(attrs[1..], i - 1, v);
    }
  }

  /** The value of the first `lang` pair after appending a pair to a list
      that had none is the appended value. */
  lemma {:induction false} LangValueAppended(attrs: seq<Attr>, v: string)
    requires LangValue(attrs).None?
    ensures LangValue(attrs + [Attr(LangKey, v)]) == Some(v)
    decreases |attrs|
  {
    if |attrs| > 0 {
      assert (attrs + [Attr(LangKey, v)])[1..] == attrs[1..] + [Attr(LangKey, v)];
      LangValueAppended(attrs[1..], v);
    }
  }

  /** The language accumulates and never replaces: after the update the
      `lang` value is the old value, a space and the language, or just the
      language when there was no `lang` pair. */
  lemma LangAccumulates(attrs: seq<Attr>, lang: string)
    ensures LangValue(WithLang(attrs, lang)) ==
      Some(if LangValue(attrs).Some? then LangValue(attrs).value + " " + lang else lang)
  {
    AttrIndexFindsLangValue(attrs);
    var i := AttrIndex(attrs, LangKey);
    if i < 0 {
      LangValueAppended(attrs, lang);
    } else {
      LangValueAt(attrs, i, Attr(LangKey, attrs[i].value + " " + lang));
    }
  }

  /** With an empty info text no `lang` pair is added, whatever the
      highlighter does: the wrapper, when there is one, renders the token's
      own attributes. */
  lemma EmptyInfoRendersOwnAttrs(env: Collaborators, token: Token)
    requires InfoText(env, token) == ""
    ensures var h := Highlighted(env, token.content, "");
      RenderFence(env, token) == h + "\n" ||
      RenderFence(env, token) == PreOpen + env.renderAttrs(token.attrs) + ">" + h + PreClose
  {
  }

  /** Output the highlighter already wrapped is never re-wrapped: it does not
      depend on the attribute renderer at all. */
  lemma PreWrappedIgnoresAttrs(env: Collaborators, token: Token, render: Option<seq<Attr>> -> string)
    requires PreOpen <= Highlighted(env, token.content, LangName(env, token))
    ensures RenderFence(env, token) == RenderFence(env.(renderAttrs := render), token)
  {
    assert LangName(env, token) == LangName(env.(renderAttrs := render), token);
  }

  /** Without a highlighter, a tagged block whose token has no attributes is
      wrapped as `<pre` + rendered `[["lang", lang]]` + `>` + escaped content. */
  lemma PlainTaggedBlock(env: Collaborators, token: Token)
    requires env.highlight.None? && token.attrs.None?
    requires InfoText(env, token) != ""
    requires !(PreOpen <= env.escapeHtml(token.content))
    ensures RenderFence(env, token) ==
      PreOpen + env.renderAttrs(Some([Attr(LangKey, LangName(env, token))])) + ">"
      + env.escapeHtml(token.content) + PreClose
  {
    var lang := LangName(env, token);
    assert AttrList(token.attrs) == [];
    assert WithLang([], lang) == [Attr(LangKey, lang)];
  }

  /** A non-empty info string whose unescaped form is an unpadded middle
      between whitespace runs reads as that middle, and the language is the
      first word of the middle. */
  lemma {:induction false} InfoTextOfPadded(
    env: Collaborators, token: Token, lead: string, mid: string, trail: string)
    requires token.info != ""
    requires env.unescapeMd(token.info) == lead + mid + trail
    requires AllSpace(lead) && AllSpace(trail) && Unpadded(mid)
    ensures InfoText(env, token) == mid
    ensures LangName(env, token) == FirstWord(mid)
  {
    TrimSurrounded(lead, mid, trail);
  }

  /** The info string "js" names the language "js". */
  lemma {:induction false} JsInfoNamesJs(env: Collaborators, content: string)
    requires env.unescapeMd("js") == "js"
    ensures InfoText(env, Token(content, "js", None)) == "js"
    ensures LangName(env, Token(content, "js", None)) == "js"
  {
    assert [] + "js" + [] == "js";
    TrimSurrounded([], "js", []);
  }

  /** The example's code does not start with `<pre`. */
  lemma JsCodeIsNotPre()
    ensures !(PreOpen <= "console.log(1)\n")
  {
    assert "console.log(1)\n"[0] == 'c' && PreOpen[0] == '<';
  }

  /** The example's wrapper, written out as one string. */
  lemma JsWrapperText(mid: string)
    ensures PreOpen + mid + ">" + "console.log(1)\n" + PreClose == "<pre" + mid + ">console.log(1)\n</pre>\n"
  {
  }

  /** The block "```js" / "console.log(1)" / "```" without a highlighter, with
      escaping that leaves this content alone and unescaping that leaves "js"
      alone, renders as a `<pre lang>` wrapper around the raw code. */
  lemma {:induction false} JsBlockExample(env: Collaborators)
    requires env.highlight.None?
    requires env.unescapeMd("js") == "js"
    requires env.escapeHtml("console.log(1)\n") == "console.log(1)\n"
    ensures RenderFence(env, Token("console.log(1)\n", "js", None)) ==
      "<pre" + env.renderAttrs(Some([Attr("lang", "js")])) + ">console.log(1)\n</pre>\n"
  {
    var code := "console.log(1)\n";
    var token := Token(code, "js", None);
    JsInfoNamesJs(env, code);
    JsCodeIsNotPre();
    PlainTaggedBlock(env, token);
    JsWrapperText(env.renderAttrs(Some([Attr("lang", "js")])));
  }

  /** With a single `lang` pair holding `w`, the wrapper renders that pair
      with the language joined on. */
  lemma JoinsOntoSinglePair(env: Collaborators, token: Token, w: string)
    requires token.attrs == Some([Attr(LangKey, w)])
    requires InfoText(env, token) != ""
    ensures RenderedAttrs(env, token) == Some([Attr(LangKey, w + " " + LangName(env, token))])
  {
    var attrs := [Attr(LangKey, w)];
    assert AttrIndex(attrs, LangKey) == 0;
    assert WithLang(attrs, LangName(env, token)) == [Attr(LangKey, w + " " + LangName(env, token))];
  }

  /** Because the existing `lang` pair is shared with the token, rendering
      the same token a second time joins the language onto it again. */
  lemma RerenderJoinsTwice(env: Collaborators, token: Token, v: string)
    requires token.attrs == Some([Attr(LangKey, v)])
    requires InfoText(env, token) != ""
    requires !(PreOpen <= Highlighted(env, token.content, LangName(env, token)))
    ensures var lang := LangName(env, token);
      TokenAttrsAfter(env, token) == Some([Attr(LangKey, v + " " + lang)])
    ensures var lang := LangName(env, token);
      RenderedAttrs(env, token.(attrs := TokenAttrsAfter(env, token))) ==
        Some([Attr(LangKey, v + " " + lang + " " + lang)])
  {
    var lang := LangName(env, token);
    JoinsOntoSinglePair(env, token, v);
    assert AttrIndex([Attr(LangKey, v)], LangKey) == 0;
    var token' := token.(attrs := Some([Attr(LangKey, v + " " + lang)]));
    assert InfoText(env, token') == InfoText(env, token);
    assert LangName(env, token') == lang;
    JoinsOntoSinglePair(env, token', v + " " + lang);
  }
}

=== FILE: js_text.dfy ===
/**
 This module models the few pieces of JavaScript string behaviour the fence
 rule relies on: the whitespace class shared by `String.prototype.trim` and the
 regular-expression escape `\s`, `trim()` itself, and `split(/\s+/)[0]`.
 */
module JsText {

  /** ECMAScript WhiteSpace and LineTerminator code points: the set both
      `trim()` removes and `\s` matches. */
  predicate IsSpace(c: char) {
    || c == '\t' || c == '\n' || c == '\U{000B}' || c == '\U{000C}' || c == '\r'
    || c == ' ' || c == '\U{00A0}' || c == '\U{1680}'
    || ('\U{2000}' <= c <= '\U{200A}')
    || c == '\U{2028}' || c == '\U{2029}' || c == '\U{202F}' || c == '\U{205F}'
    || c == '\U{3000}' || c == '\U{FEFF}'
  }

  /** No character of `s` is whitespace. */
  predicate NoSpace(s: string) {
    forall k :: 0 <= k < |s| ==> !IsSpace(s[k])
  }

  /** Every character of `s` is whitespace (vacuously so for ""). */
  predicate AllSpace(s: string) {
    forall k :: 0 <= k < |s| ==> IsSpace(s[k])
  }

  /** Neither end of `s` is whitespace: what `trim()` leaves behind. */
  predicate Unpadded(s: string) {
    s == [] || (!IsSpace(s[0]) && !IsSpace(s[|s| - 1]))
  }

  /** Whitespace runs concatenate to a whitespace run. */
  lemma AllSpaceConcat(a: string, b: string)
    requires AllSpace(a) && AllSpace(b)
    ensures AllSpace(a + b)
  {
    forall k | 0 <= k < |a + b| ensures IsSpace((a + b)[k]) {
      if k < |a| { assert (a + b)[k] == a[k]; } else { assert (a + b)[k] == b[k - |a|]; }
    }
  }

  /** `s` with its leading whitespace removed. */
  function TrimStart(s: string): (r: string)
    ensures |r| <= |s| && r == s[|s| - |r|..]
    ensures AllSpace(s[..|s| - |r|])
    ensures r == [] || !IsSpace(r[0])
    decreases |s|
  {
    if |s| > 0 && IsSpace(s[0]) then
      var r := TrimStart(s[1..]);
      assert r == s[|s| - |r|..];
      assert s[..|s| - |r|] == [s[0]] + s[1..][..|s| - 1 - |r|];
      AllSpaceConcat([s[0]], s[1..][..|s| - 1 - |r|]);
      r
    else
      assert s[..0] == [];
      s
  }

  /** `s` with its trailing whitespace removed. */
  function TrimEnd(s: string): (r: string)
    ensures |r| <= |s| && r == s[..|r|]
    ensures AllSpace(s[|r|..])
    ensures r == [] || !IsSpace(r[|r| - 1])
    decreases |s|
  {
    if |s| > 0 && IsSpace(s[|s| - 1]) then
      var p := s[..|s| - 1];
      var r := TrimEnd(p);
      assert r == s[..|r|];
      assert s[|r|..] == p[|r|..] + [s[|s| - 1]];
      AllSpaceConcat(p[|r|..], [s[|s| - 1]]);
      r
    else
      assert s[|s|..] == [];
      s
  }

  /** `String.prototype.trim`: whitespace removed from both ends. The result
      is empty exactly when `s` is all whitespace. */
  function Trim(s: string): (r: string)
    ensures |r| <= |s|
    ensures Unpadded(r)
    ensures r == [] <==> AllSpace(s)
  {
    var t := TrimStart(s);
    var r := TrimEnd(t);
    TrimProperties(s, t, r);
    r
  }

  /** The facts `Trim` needs about trimming the start and then the end. */
  lemma {:induction false} TrimProperties(s: string, t: string, r: string)
    requires t == TrimStart(s) && r == TrimEnd(t)
    ensures Unpadded(r)
    ensures r == [] <==> AllSpace(s)
  {
    if r == [] {
      TrimmedToNothing(s, t);
    } else {
      assert s[|s| - |t|] == t[0] == r[0];
    }
  }

  /** When nothing is left after trimming the end, the whole string was whitespace. */
  lemma {:induction false} TrimmedToNothing(s: string, t: string)
    requires t == TrimStart(s) && TrimEnd(t) == []
    ensures AllSpace(s)
  {
    var lead := s[..|s| - |t|];
    assert s == lead + t;
    assert t[0..] == t;
    AllSpaceConcat(lead, t);
  }

  /** `s.split(/\s+/)[0]`: the longest whitespace-free prefix of `s`. */
  function FirstWord(s: string): (w: string)
    ensures |w| <= |s| && w == s[..|w|]
    ensures NoSpace(w)
    ensures |w| == |s| || IsSpace(s[|w|])
  {
    if |s| == 0 || IsSpace(s[0]) then [] else [s[0]] + FirstWord(s[1..])
  }

  /** Dropping leading whitespace in front of a string that does not start
      with whitespace gives back that string. */
  lemma {:induction false} TrimStartSkips(lead: string, rest: string)
    requires AllSpace(lead)
    requires rest == [] || !IsSpace(rest[0])
    ensures TrimStart(lead + rest) == rest
    decreases |lead|
  {
    if lead == [] {
      assert lead + rest == rest;
    } else {
      assert (lead + rest)[1..] == lead[1..] + rest;
      TrimStartSkips(lead[1..], rest);
    }
  }

  /** Dropping trailing whitespace behind a string that does not end with
      whitespace gives back that string. */
  lemma {:induction false} TrimEndSkips(rest: string, trail: string)
    requires AllSpace(trail)
    requires rest == [] || !IsSpace(rest[|rest| - 1])
    ensures TrimEnd(rest + trail) == rest
    decreases |trail|
  {
    if trail == [] {
      assert rest + trail == rest;
    } else {
      var n := |trail| - 1;
      assert (rest + trail)[..|rest + trail| - 1] == rest + trail[..n];
      TrimEndSkips(rest, trail[..n]);
    }
  }

  /** `trim()` removes exactly the surrounding whitespace: for any unpadded
      middle, whatever whitespace surrounds it, trimming gives the middle. */
  lemma {:induction false} TrimSurrounded(lead: string, mid: string, trail: string)
    requires AllSpace(lead) && AllSpace(trail) && Unpadded(mid)
    ensures Trim(lead + mid + trail) == mid
  {
    var s := lead + mid + trail;
    if mid == [] {
      assert s == lead + trail;
      assert AllSpace(s) by {
        forall k | 0 <= k < |s| ensures IsSpace(s[k]) {
          if k < |lead| { assert s[k] == lead[k]; } else { assert s[k] == trail[k - |lead|]; }
        }
      }
    } else {
      assert s == lead + (mid + trail);
      TrimStartSkips(lead, mid + trail);
      TrimEndSkips(mid, trail);
    }
  }

  /** The first word of `w`, followed by whitespace and anything at all, is `w`. */
  lemma {:induction false} FirstWordBeforeSpace(w: string, sep: char, rest: string)
    requires NoSpace(w) && IsSpace(sep)
    ensures FirstWord(w + [sep] + rest) == w
    decreases |w|
  {
    var s := w + [sep] + rest;
    if w != [] {
      assert s[1..] == w[1..] + [sep] + rest;
      FirstWordBeforeSpace(w[1..], sep, rest);
      assert [w[0]] + w[1..] == w;
    }
  }
}

=== FILE: publish.dfy ===
/**
 The publish command: the rendered answer HTML is sent to the question or
 answer the user picks, and on success the remote page is fetched and shown.

 The run is a pure function from its inputs to the trace of effects it
 causes. The editor text, its rendering, the collection of targets, the
 user's pick and the server's replies are all inputs; the API base URLs are
 parameters whose values are not part of this model.
 */
module Publish {
  import opened Wrappers

  /** The type tag of a publish target. */
  datatype MediaType = Question | Answer | OtherMedia(tag: string)

  /** A candidate target from the collection. A missing title is `""`. */
  datatype CollectionItem = CollectionItem(id: string, kind: MediaType, title: string, excerpt: string)

  /** The entry offered in the quick pick for one candidate. */
  datatype PickItem = PickItem(labelText: string, description: string, id: string, kind: MediaType)

  /** The chosen target reduced to what the submission needs. */
  datatype Target = Target(id: string, kind: MediaType)

  /** The base URLs of the question and answer APIs. */
  datatype Endpoints = Endpoints(questionApi: string, answerApi: string)

  datatype Verb = Get | Post | Put

  datatype RewardSetting = RewardSetting(canReward: bool, tagline: string)

  /** Request bodies: none, a new answer, or an update of an existing answer. */
  datatype Body =
    | NoBody
    | PostAnswer(content: string)
    | AnswerUpdate(content: string, reward: RewardSetting)

  /** One HTTP request as handed to the transport. */
  datatype Request = Request(
    uri: string, verb: Verb, body: Body, json: bool, fullResponse: bool, gzip: bool)

  /** The options of the panel the fetched page is shown in. */
  datatype PanelOptions = PanelOptions(
    viewType: string, title: string, column: nat,
    enableScripts: bool, enableCommandUris: bool, enableFindWidget: bool)

  /** What a run does to the world, in order. */
  datatype Effect =
    | Offer(items: seq<PickItem>)
    | Send(req: Request)
    | Notify(message: string)
    | OpenPanel(options: PanelOptions)
    | ShowPage(html: string)

  /** What the transport delivers for the submission. `bodyId` is `None`
      when the reply body is `null` or `undefined`, so that reading `id` from
      it throws; otherwise it is the text `resp.body.id` interpolates to
      (`"undefined"` when the body has no id). */
  datatype SubmitReply = Replied(statusCode: int, bodyId: Option<string>) | SubmitFailed

  /** What the transport delivers for the follow-up page fetch. */
  datatype PageReply = Page(html: string) | PageFailed

  /** Everything a run reads from outside: the candidates, the index of the
      picked item (`None` when the pick is dismissed) and the two replies. */
  datatype Host = Host(
    targets: seq<CollectionItem>, choice: Option<nat>, submit: SubmitReply, page: PageReply)

  /** Whether the promise the command returns settles normally or rejects
      because no item was picked. */
  datatype Outcome = Settled | Cancelled

  datatype Run = Run(effects: seq<Effect>, outcome: Outcome)

  /** The notification prefix, "publish succeeded!" followed by a newline and a space. */
  const SuccessPrefix := "\U{53D1}\U{5E03}\U{6210}\U{529F}\U{FF01}\n "

  /** `vscode.ViewColumn.One`. */
  const ColumnOne: nat := 1

  const ResultPanel := PanelOptions("zhihu", "zhihu", ColumnOne, true, true, true)

  /** The host can only return one of the offered items. */
  predicate ValidChoice(host: Host) {
    host.choice.Some? ==> host.choice.value < |host.targets|
  }

  /** The quick-pick entry for a candidate: labelled by its title, or by its
      excerpt when the title is empty. */
  function ToPickItem(t: CollectionItem): (p: PickItem)
    ensures p.labelText == t.title || (t.title == "" && p.labelText == t.excerpt)
    ensures p.labelText == "" ==> t.title == "" && t.excerpt == ""
    ensures p.description == t.excerpt && p.id == t.id && p.kind == t.kind
  {
    PickItem(if t.title != "" then t.title else t.excerpt, t.excerpt, t.id, t.kind)
  }

  /** The quick-pick entries, one per candidate and in the same order. */
  function PickItems(targets: seq<CollectionItem>): (items: seq<PickItem>)
    ensures |items| == |targets|
    ensures forall i :: 0 <= i < |items| ==>
      && items[i].id == targets[i].id && items[i].kind == targets[i].kind
      && items[i].description == targets[i].excerpt
      && (items[i].labelText == targets[i].title
          || (targets[i].title == "" && items[i].labelText == targets[i].excerpt))
      && (items[i].labelText == "" ==> targets[i].title == "" && targets[i].excerpt == "")
  {
    seq(|targets|, i requires 0 <= i < |targets| => ToPickItem(targets[i]))
  }

  /** `{id, type}` of a picked entry; the label and description are dropped. */
  function ToTarget(p: PickItem): (t: Target)
    ensures t.id == p.id && t.kind == p.kind
  {
    Target(p.id, p.kind)
  }

  /** The target the user picked: the id and type of the chosen candidate
      survive the trip through the display entry; nothing when dismissed. */
  function SelectTarget(targets: seq<CollectionItem>, choice: Option<nat>): (sel: Option<Target>)
    requires choice.Some? ==> choice.value < |targets|
    ensures sel.None? <==> choice.None?
    ensures choice.Some? ==>
      sel == Some(Target(targets[choice.value].id, targets[choice.value].kind))
  {
    match choice
    case None => None
    case Some(i) => Some(ToTarget(PickItems(targets)[i]))
  }

  function QuestionAnswersUri(api: Endpoints, id: string): string {
    api.questionApi + "/" + id + "/answers"
  }

  function AnswerUri(api: Endpoints, id: string): string {
    api.answerApi + "/" + id
  }

  /** The submission for a target: a new answer POSTed to the question, an
      update PUT to the answer, nothing for any other type. The HTML is sent
      as rendered. */
  function SubmitRequest(api: Endpoints, t: Target, html: string): (req: Option<Request>)
    ensures req.None? <==> t.kind.OtherMedia?
    ensures req.Some? ==> req.value.json && req.value.fullResponse && !req.value.gzip
    ensures t.kind == Question ==> req == Some(Request(
      QuestionAnswersUri(api, t.id), Post, PostAnswer(html), true, true, false))
    ensures t.kind == Answer ==> req == Some(Request(
      AnswerUri(api, t.id), Put, AnswerUpdate(html, RewardSetting(false, "")), true, true, false))
  {
    match t.kind
    case Question =>
      Some(Request(QuestionAnswersUri(api, t.id), Post, PostAnswer(html), true, true, false))
    case Answer =>
      Some(Request(AnswerUri(api, t.id), Put, AnswerUpdate(html, RewardSetting(false, "")), true, true, false))
    case OtherMedia(_) => None
  }

  /** The compressed GET of the answer page at the picked target's id, which
      for a question target is the question's id. It carries no body and
      asks for the body alone. */
  function FetchRequest(api: Endpoints, t: Target): (r: Request)
    ensures r.verb == Get && r.body == NoBody && r.gzip && !r.json && !r.fullResponse
    ensures r.uri == AnswerUri(api, t.id)
  {
    Request(AnswerUri(api, t.id), Get, NoBody, false, false, true)
  }

  /** What follows a successful submission: a panel is opened, the page is
      fetched, and the page is shown in the panel once it arrives. */
  function FollowUp(api: Endpoints, t: Target, page: PageReply): (f: seq<Effect>)
    ensures |f| == (if page.Page? then 3 else 2)
    ensures f[0] == OpenPanel(ResultPanel) && f[1] == Send(FetchRequest(api, t))
    ensures page.Page? ==> f[2] == ShowPage(page.html)
    ensures ResultPanel.enableScripts && ResultPanel.enableCommandUris && ResultPanel.enableFindWidget
  {
    [OpenPanel(ResultPanel), Send(FetchRequest(api, t))]
      + (if page.Page? then [ShowPage(page.html)] else [])
  }

  /** Whether the reply handler runs through to the notification: for a
      question only a 200 reply passes the gate, and a `null` body then
      throws when its id is read; for an answer any reply does; for any
      other type nothing was sent. */
  predicate Accepted(kind: MediaType, reply: SubmitReply): (ok: bool)
    ensures ok ==> reply.Replied? && !kind.OtherMedia?
    ensures kind == Answer ==> (ok <==> reply.Replied?)
    ensures kind == Question && reply.Replied? && reply.statusCode != 200 ==> !ok
    ensures kind == Question && reply.Replied? && reply.bodyId.None? ==> !ok
  {
    match kind
    case Question => reply.Replied? && reply.statusCode == 200 && reply.bodyId.Some?
    case Answer => reply.Replied?
    case OtherMedia(_) => false
  }

  /** The text of the success notification: the new answer's URL under the
      question, or the updated answer's URL. */
  function SuccessNotice(api: Endpoints, t: Target, reply: SubmitReply): (text: string)
    requires Accepted(t.kind, reply)
    ensures SuccessPrefix <= text
    ensures t.kind == Question ==>
      text == SuccessPrefix + QuestionAnswersUri(api, t.id) + "/" + reply.bodyId.value
    ensures t.kind == Answer ==> text == SuccessPrefix + SubmitRequest(api, t, "").value.uri
  {
    if t.kind == Question then SuccessPrefix + QuestionAnswersUri(api, t.id) + "/" + reply.bodyId.value
    else SuccessPrefix + AnswerUri(api, t.id)
  }

  /** The effects after the submission reply: on success a notification and
      the follow-up, otherwise nothing. */
  function AfterSubmit(api: Endpoints, t: Target, reply: SubmitReply, page: PageReply): (r: seq<Effect>)
    ensures r == [] <==> !Accepted(t.kind, reply)
    ensures Accepted(t.kind, reply) ==>
      r[0] == Notify(SuccessNotice(api, t, reply)) && r[1..] == FollowUp(api, t, page)
  {
    if Accepted(t.kind, reply) then [Notify(SuccessNotice(api, t, reply))] + FollowUp(api, t, page)
    else []
  }

  /** One run of the publish command on already rendered HTML. */
  function PublishRun(api: Endpoints, html: string, host: Host): (run: Run)
    requires ValidChoice(host)
    ensures |run.effects| > 0 && run.effects[0] == Offer(PickItems(host.targets))
    ensures run.outcome == Cancelled <==> host.choice.None?
  {
    var offer := Offer(PickItems(host.targets));
    match SelectTarget(host.targets, host.choice)
    case None => Run([offer], Cancelled)
    case Some(t) =>
      match SubmitRequest(api, t, html)
      case None => Run([offer], Settled)
      case Some(req) => Run([offer, Send(req)] + AfterSubmit(api, t, host.submit, host.page), Settled)
  }

  /** The requests in a trace, in order. */
  function Requests(effects: seq<Effect>): seq<Request> {
    if |effects| == 0 then []
    else (if effects[0].Send? then [effects[0].req] else []) + Requests(effects[1..])
  }

  /** The notification texts in a trace, in order. */
  function Notices(effects: seq<Effect>): seq<string> {
    if |effects| == 0 then []
    else (if effects[0].Notify? then [effects[0].message] else []) + Notices(effects[1..])
  }

  lemma {:induction false} RequestsAppend(a: seq<Effect>, b: seq<Effect>)
    ensures Requests(a + b) == Requests(a) + Requests(b)
    decreases |a|
  {
    if |a| > 0 {
      assert (a + b)[1..] == a[1..] + b;
      RequestsAppend(a[1..], b);
    } else {
      assert a + b == b;
    }
  }

  lemma {:induction false} NoticesAppend(a: seq<Effect>, b: seq<Effect>)
    ensures Notices(a + b) == Notices(a) + Notices(b)
    decreases |a|
  {
    if |a| > 0 {
      assert (a + b)[1..] == a[1..] + b;
      NoticesAppend(a[1..], b);
    } else {
      assert a + b == b;
    }
  }

  /** The requests and notices of the follow-up: one GET, no notice. */
  lemma FollowUpTrace(api: Endpoints, t: Target, page: PageReply)
    ensures Requests(FollowUp(api, t, page)) == [FetchRequest(api, t)]
    ensures Notices(FollowUp(api, t, page)) == []
  {
    var tail := if page.Page? then [ShowPage(page.html)] else [];
    RequestsAppend([OpenPanel(ResultPanel), Send(FetchRequest(api, t))], tail);
    NoticesAppend([OpenPanel(ResultPanel), Send(FetchRequest(api, t))], tail);
  }

  /** The requests and notices of a run that picked `t`, in terms of the
      submission and what follows it. */
  lemma PickedTrace(api: Endpoints, html: string, host: Host, t: Target)
    requires ValidChoice(host) && SelectTarget(host.targets, host.choice) == Some(t)
    ensures var run := PublishRun(api, html, host);
      && Requests(run.effects) ==
        (if t.kind.OtherMedia? then []
         else [SubmitRequest(api, t, html).value] + Requests(AfterSubmit(api, t, host.submit, host.page)))
      && Notices(run.effects) ==
        (if t.kind.OtherMedia? then [] else Notices(AfterSubmit(api, t, host.submit, host.page)))
  {
    var offer := Offer(PickItems(host.targets));
    if !t.kind.OtherMedia? {
      var req := SubmitRequest(api, t, html).value;
      var after := AfterSubmit(api, t, host.submit, host.page);
      RequestsAppend([offer, Send(req)], after);
      NoticesAppend([offer, Send(req)], after);
    }
  }

  /** A dismissed pick rejects before anything is sent or shown. */
  lemma CancelledSendsNothing(api: Endpoints, html: string, host: Host)
    requires ValidChoice(host) && host.choice.None?
    ensures var run := PublishRun(api, html, host);
      run.outcome == Cancelled && Requests(run.effects) == [] && Notices(run.effects) == []
  {
  }

  /** The requests and notices after the reply: one notice and the GET of
      the answer page on success, nothing otherwise. */
  lemma AfterSubmitTrace(api: Endpoints, t: Target, reply: SubmitReply, page: PageReply)
    ensures Requests(AfterSubmit(api, t, reply, page)) ==
      (if Accepted(t.kind, reply) then [FetchRequest(api, t)] else [])
    ensures Notices(AfterSubmit(api, t, reply, page)) ==
      (if Accepted(t.kind, reply) then [SuccessNotice(api, t, reply)] else [])
  {
    if Accepted(t.kind, reply) {
      var note := Notify(SuccessNotice(api, t, reply));
      RequestsAppend([note], FollowUp(api, t, page));
      NoticesAppend([note], FollowUp(api, t, page));
      FollowUpTrace(api, t, page);
    }
  }

  /** A question target: exactly one POST of the HTML to the question's
      answers; only a 200 reply leads to the notice with the new answer's
      URL and to a GET of the answer API at the question's id. */
  lemma QuestionPlan(api: Endpoints, html: string, host: Host, id: string)
    requires ValidChoice(host)
    requires SelectTarget(host.targets, host.choice) == Some(Target(id, Question))
    ensures var run := PublishRun(api, html, host);
      var ok := host.submit.Replied? && host.submit.statusCode == 200 && host.submit.bodyId.Some?;
      && Requests(run.effects) ==
        [Request(QuestionAnswersUri(api, id), Post, PostAnswer(html), true, true, false)]
        + (if ok then [Request(AnswerUri(api, id), Get, NoBody, false, false, true)] else [])
      && Notices(run.effects) ==
        (if ok then [SuccessPrefix + QuestionAnswersUri(api, id) + "/" + host.submit.bodyId.value] else [])
  {
    var t := Target(id, Question);
    PickedTrace(api, html, host, t);
    AfterSubmitTrace(api, t, host.submit, host.page);
  }

  /** An answer target: exactly one PUT of the HTML with rewards switched
      off; any reply, whatever its status, leads to the notice and the GET
      of the answer page. */
  lemma AnswerPlan(api: Endpoints, html: string, host: Host, id: string)
    requires ValidChoice(host)
    requires SelectTarget(host.targets, host.choice) == Some(Target(id, Answer))
    ensures var run := PublishRun(api, html, host);
      && Requests(run.effects) ==
        [Request(AnswerUri(api, id), Put, AnswerUpdate(html, RewardSetting(false, "")), true, true, false)]
        + (if host.submit.Replied? then [Request(AnswerUri(api, id), Get, NoBody, false, false, true)] else [])
      && Notices(run.effects) ==
        (if host.submit.Replied? then [SuccessPrefix + AnswerUri(api, id)] else [])
  {
    var t := Target(id, Answer);
    PickedTrace(api, html, host, t);
    AfterSubmitTrace(api, t, host.submit, host.page);
  }

  /** Any other target type: nothing is sent and nothing is shown. */
  lemma OtherTypeSendsNothing(api: Endpoints, html: string, host: Host, id: string, tag: string)
    requires ValidChoice(host)
    requires SelectTarget(host.targets, host.choice) == Some(Target(id, OtherMedia(tag)))
    ensures var run := PublishRun(api, html, host);
      run.outcome == Settled && Requests(run.effects) == [] && Notices(run.effects) == []
  {
    PickedTrace(api, html, host, Target(id, OtherMedia(tag)));
  }

  /** The answer branch never looks at the status code: two replies that
      differ only in status give the same run. */
  lemma AnswerIgnoresStatus(api: Endpoints, html: string, host: Host, status: int, id: string)
    requires ValidChoice(host) && host.submit.Replied?
    requires SelectTarget(host.targets, host.choice) == Some(Target(id, Answer))
    ensures PublishRun(api, html, host) ==
      PublishRun(api, html, host.(submit := Replied(status, host.submit.bodyId)))
  {
  }

  /** The question branch gates on the status: a non-200 reply ends the run
      right after the POST. */
  lemma QuestionGatedOnStatus(api: Endpoints, html: string, host: Host, id: string)
    requires ValidChoice(host) && host.submit.Replied? && host.submit.statusCode != 200
    requires SelectTarget(host.targets, host.choice) == Some(Target(id, Question))
    ensures PublishRun(api, html, host).effects == [
      Offer(PickItems(host.targets)),
      Send(Request(QuestionAnswersUri(api, id), Post, PostAnswer(html), true, true, false))]
  {
  }

  /** A 200 reply to the question POST whose body is `null` or `undefined`
      throws when the new answer's id is read: no notice, panel or GET
      follows the POST. */
  lemma NullBodyStopsQuestion(api: Endpoints, html: string, host: Host, id: string)
    requires ValidChoice(host) && host.submit == Replied(200, None)
    requires SelectTarget(host.targets, host.choice) == Some(Target(id, Question))
    ensures PublishRun(api, html, host).effects == [
      Offer(PickItems(host.targets)),
      Send(Request(QuestionAnswersUri(api, id), Post, PostAnswer(html), true, true, false))]
  {
  }

  /** The follow-up GET is addressed by the picked target's id: replacing
      the id of the newly created answer in a reply body by any other id
      does not change any request. */
  lemma FetchIgnoresNewAnswerId(api: Endpoints, html: string, host: Host, other: string)
    requires ValidChoice(host) && host.submit.Replied? && host.submit.bodyId.Some?
    ensures var host' := host.(submit := Replied(host.submit.statusCode, Some(other)));
      Requests(PublishRun(api, html, host).effects) == Requests(PublishRun(api, html, host').effects)
  {
    var host' := host.(submit := Replied(host.submit.statusCode, Some(other)));
    match SelectTarget(host.targets, host.choice)
    case None =>
    case Some(t) =>
      match t.kind
      case Question =>
        QuestionPlan(api, html, host, t.id);
        QuestionPlan(api, html, host', t.id);
      case Answer =>
        AnswerPlan(api, html, host, t.id);
        AnswerPlan(api, html, host', t.id);
      case OtherMedia(tag) =>
        OtherTypeSendsNothing(api, html, host, t.id, tag);
        OtherTypeSendsNothing(api, html, host', t.id, tag);
  }

  /** The notice text of the example below, written out. */
  lemma Question42Notice(api: Endpoints)
    ensures SuccessPrefix + QuestionAnswersUri(api, "42") + "/" + "7"
      == SuccessPrefix + api.questionApi + "/42/answers/7"
  {
    var q := api.questionApi;
    assert QuestionAnswersUri(api, "42") + "/" + "7" == q + ("/" + "42" + "/answers" + "/" + "7");
    assert "/" + "42" + "/answers" + "/" + "7" == "/42/answers/7";
  }

  /** The POST address of the example below, written out. */
  lemma Question42Uri(api: Endpoints)
    ensures QuestionAnswersUri(api, "42") == api.questionApi + "/42/answers"
  {
    assert "/" + "42" + "/answers" == "/42/answers";
  }

  /** Picking question 42 and receiving a 200 reply for new answer 7: the
      POST goes to `<QuestionAPI>/42/answers` and the notice names
      `<QuestionAPI>/42/answers/7`. */
  lemma Question42Example(api: Endpoints, html: string, host: Host)
    requires ValidChoice(host)
    requires SelectTarget(host.targets, host.choice) == Some(Target("42", Question))
    requires host.submit == Replied(200, Some("7"))
    ensures var run := PublishRun(api, html, host);
      && |Requests(run.effects)| == 2
      && Requests(run.effects)[0].uri == api.questionApi + "/42/answers"
      && Notices(run.effects) == [SuccessPrefix + api.questionApi + "/42/answers/7"]
  {
    QuestionPlan(api, html, host, "42");
    Question42Notice(api);
    Question42Uri(api);
  }
}

=== FILE: wrappers.dfy ===
/** Optional values, standing in for JavaScript's `undefined`/`null`. */
module Wrappers {

  /** A value that may be absent. */
  datatype Option<+T> = None | Some(value: T) {

    /** The carried value, or `default` when there is none. */
    function GetOr(default: T): T {
      match this
      case Some(v) => v
      case None => default
    }
  }
}
